=== FILE: README.md ===
# whiskycrack wordlist engine in Dafny

This project models the generation engine of `whiskycrack.py`: the two size
functions `calculate_wordlist_size` and `estimate_wordlist_size`, and
`generate_wordlist`, which builds a character string from feature flags and
then writes one of two kinds of wordlist.

- **Words mode.** Each seed word is written on its own line. When there is
  more than one word, every ordering of the word list follows, with the
  words of each ordering joined into one line.
- **Product mode.** Every string of the entry length over the character
  string is written. Three things come first: a check that some character
  type was chosen, a size estimate, and a yes/no prompt when the estimate is
  above 1,000,000 bytes.

The model is functional. A run is the total function `Wordlist.Generate`
from a request and the user's typed answer to an `Outcome`. An outcome is a
configuration error, an aborted run, the exception `itertools.product`
raises for a negative length, or the list of lines written, in order.

`itertools.product` and `itertools.permutations` work on positions, so the
model does too. `Tuples.IndexTuples` lists the position tuples of the
Cartesian power, first position outermost. `Permutations.IndexPerms` lists
the position orderings of the word list. Each is then spelled out as
characters or joined words. So a character that appears twice in the
alphabet, or a word that appears twice in the list, gives repeated lines,
just as in Python (`Tuples.ProductDistinct`, `Wordlist.ProductRunDistinct`,
`Wordlist.RepeatedWordRepeatsLines`).

Modules:

- `Order`: strict lexicographic order on position sequences.
- `Tuples`: `itertools.product`. Its facts are the count `|A|^L`, exact
  membership, strictly increasing order, completeness, and when lines repeat.
- `Permutations`: `itertools.permutations`. Its facts are the count `n!`,
  exact membership (the rearrangements, or the position orderings) and
  strictly increasing order.
- `Alphabet`: the character string of lines 14-26, including
  `sorted(set(...))` and the four `string` module constants.
- `Estimate`: `calculate_wordlist_size`, `estimate_wordlist_size` and the
  threshold test. The factor 1.4 is the exact rational 7/5.
- `Output`: the text the `file.write(x + '\n')` calls produce, a reader for
  it, and a loop that writes the lines.
- `Wordlist`: `generate_wordlist`.

Three behaviours of the code that are easy to miss are stated exactly:

- The incremental characters are deduplicated among themselves only. They
  are not checked against the characters already chosen, so the alphabet can
  repeat a character. `Alphabet.AlphabetRepeats` states exactly when.
- `default` replaces the other character classes rather than adding to
  them (`Alphabet.DefaultIgnoresFlags`).
- Product mode rejects a request that sets only `default`. See Findings.

## Model

| member | source | states |
|---|---|---|
| `Tuples.IndexTuplesCount` | whiskycrack.py:57 | `itertools.product` over `n` positions with `repeat=L` visits `n^L` tuples |
| `Tuples.IndexTuplesMembers` | whiskycrack.py:57 | a tuple is visited if and only if it has length `L` and every position is below `n` |
| `Tuples.IndexTuplesSorted` | whiskycrack.py:57 | the tuples are visited in strictly increasing lexicographic order (last position fastest), so none twice |
| `Tuples.ProductCount` | whiskycrack.py:57-59 | product mode writes exactly `\|A\|^L` lines, repeated alphabet characters counted separately |
| `Tuples.ProductLines` | whiskycrack.py:57-59 | every line has length `L` and uses only characters of the alphabet |
| `Tuples.ProductComplete` | whiskycrack.py:57-59 | every string of length `L` over the alphabet is among the lines |
| `Tuples.ProductOrder` | whiskycrack.py:57-59 | line `k` spells the `k`-th position tuple, and the tuples strictly increase lexicographically |
| `Tuples.ProductOfLengthZero` | whiskycrack.py:57-59 | length 0 yields exactly one empty line |
| `Tuples.ProductDistinct` | whiskycrack.py:57-59 | the lines repeat no string if and only if the length is 0 or the alphabet repeats no character |
| `Permutations.PermsCount` | whiskycrack.py:35 | a list of `n` elements has `n!` orderings |
| `Permutations.PermsMembers` | whiskycrack.py:35 | a sequence is among the orderings if and only if it rearranges the list (same multiset) |
| `Permutations.PermsSorted` | whiskycrack.py:35 | orderings of an increasing list come out in strictly increasing lexicographic order |
| `Permutations.IndexPermsFacts` | whiskycrack.py:35 | for `n` words: `n!` position orderings, exactly the orderings of `0..n-1`, strictly increasing, hence each once |
| `Alphabet.SortedSet` | whiskycrack.py:26 | `sorted(set(s))` is strictly increasing and has exactly the characters of `s` |
| `Alphabet.SortedSetCharacterized` | whiskycrack.py:26 | any strictly increasing string with the characters of `s` equals `SortedSet(s)` |
| `Alphabet.SortedSetSize` | whiskycrack.py:26 | `sorted(set(s))` has one character per distinct character of `s` |
| `Alphabet.ClassesAsSpans` | whiskycrack.py:14-23 | the lowercase, uppercase, digit and punctuation constants are the ASCII code ranges they should be |
| `Alphabet.LowercaseFacts` | whiskycrack.py:15 | `ascii_lowercase` has no repeats and holds exactly `a`..`z` |
| `Alphabet.UppercaseFacts` | whiskycrack.py:19 | `ascii_uppercase` has no repeats and holds exactly `A`..`Z` |
| `Alphabet.DigitsFacts` | whiskycrack.py:21 | `digits` has no repeats and holds exactly `0`..`9` |
| `Alphabet.PunctuationFacts` | whiskycrack.py:23 | `punctuation` has no repeats and holds exactly the ASCII punctuation characters |
| `Alphabet.AlphabetMembers` | whiskycrack.py:14-26 | a character is in the alphabet if and only if its class was selected (lowercase under `default`, otherwise each flagged class) or it is in the incremental alphabet |
| `Alphabet.DefaultIgnoresFlags` | whiskycrack.py:14-15 | under `default`, the caps, numbers and special flags do not change the alphabet |
| `Alphabet.AlphabetLayout` | whiskycrack.py:14-26 | the alphabet is the selected classes followed by a strictly increasing string with exactly the incremental characters |
| `Alphabet.AlphabetSize` | whiskycrack.py:14-26 | the length is 26 under `default`, otherwise 26/10/32 per flagged class, plus the number of distinct incremental characters |
| `Alphabet.AlphabetRepeats` | whiskycrack.py:17-26 | the alphabet has no repeated character if and only if no incremental character is already in the selected classes |
| `Estimate.CalculateSize` | whiskycrack.py:5-6 | the size is the number of lines product mode writes |
| `Estimate.EstimateSize` | whiskycrack.py:8-11 | the estimate is 1.4 times the number of characters in the lines product mode writes |
| `Estimate.ExceedsThresholdScaled` | whiskycrack.py:50 | the gate fires if and only if `7 * \|A\|^L * L > 5,000,000` |
| `Estimate.EstimateMonotone` | whiskycrack.py:8-11 | a longer entry or a larger alphabet never lowers the estimate |
| `Estimate.EstimateCoversOutput` | whiskycrack.py:8-11 | the estimate is at least the file's length in characters (newlines included) if and only if the length is at least 3 or nothing is written |
| `Output.WriteLines` | whiskycrack.py:57-59 | writing `line + '\n'` line by line yields exactly the file text `Serialize` defines, the text `Output.ParseSerialize` reads back and `Output.SerializeLength` measures |
| `Output.ParseSerialize` | whiskycrack.py:57-59 | reading the written text line by line gives back the lines written, when none holds a newline |
| `Output.SerializeLength` | whiskycrack.py:57-59 | the file holds every line's characters plus one newline per line |
| `Wordlist.ConfirmsExactly` | whiskycrack.py:52-53 | the answer continues the run if and only if it is `y` or `Y` |
| `Wordlist.WordModeIgnoresRest` | whiskycrack.py:31-37 | with seed words, the entry length, the character flags and the answer make no difference, and the words mode lines are written |
| `Wordlist.WordLinesLayout` | whiskycrack.py:31-34 | the first lines are the words verbatim in order, a single word is the whole output, and `n > 1` words add `n!` lines |
| `Wordlist.PermutedLinesOrderings` | whiskycrack.py:34-37 | line `n + k` joins the words in the `k`-th position ordering; every ordering appears, once, in increasing lexicographic order |
| `Wordlist.OrderingLine` | whiskycrack.py:34-37 | every ordering of the positions has its own line after the words |
| `Wordlist.EqualJoinsRepeat` | whiskycrack.py:35-37 | two different orderings that join to the same string both give a line, so the line is written twice |
| `Wordlist.RepeatedWordRepeatsLines` | whiskycrack.py:35-37 | two equal words give `[w, w, ww, ww]`: duplicate lines are not removed |
| `Wordlist.JoinedWordRepeatsLine` | whiskycrack.py:35-37 | distinct words `x`, `y`, `x+y` give the line `x+y+x+y` twice |
| `Wordlist.SeedWordWithNewline` | whiskycrack.py:31-33 | for any request whose single seed word is `x`, a newline and `y` (neither holding a newline), that word is the whole output and the file reads back as the two lines `x` and `y` |
| `Wordlist.NoCharacterTypeRejected` | whiskycrack.py:39-44 | without seed words and without caps, numbers, special or incremental characters the run is rejected, even under `default` (whose alphabet is the lowercase letters) |
| `Wordlist.AnswerOnlyAboveThreshold` | whiskycrack.py:47-55 | the answer matters only in product mode with a non-negative length and an estimate above 1,000,000 |
| `Wordlist.AbortedExactly` | whiskycrack.py:50-55 | in product mode the run is aborted if and only if `7 * \|A\|^L * L > 5,000,000` and the answer is neither `y` nor `Y` |
| `Wordlist.ProductModeLines` | whiskycrack.py:46-59 | a product run that goes ahead writes `\|A\|^L` lines (equal to `calculate_wordlist_size`), each of length `L` over `A`, every such string among them, in lexicographic order of positions |
| `Wordlist.ProductRunDistinct` | whiskycrack.py:25-59 | a product run that goes ahead writes no line twice if and only if the length is 0 or no incremental character is already among the selected classes |
| `Wordlist.NegativeLengthRaises` | whiskycrack.py:57 | a negative length in product mode ends in the `itertools.product` exception, whatever the answer |
| `Wordlist.DefaultAloneRejected` | whiskycrack.py:39-41 | `default` alone is rejected with the message that suggests `default`, though its alphabet has 26 letters |
| `Wordlist.IntendedRejectsEmptyAlphabet` | whiskycrack.py:39-44 | with the correction, a request without seed words is rejected if and only if its alphabet is empty |
| `Wordlist.IntendedAgreesElsewhere` | whiskycrack.py:39-44 | the correction changes the outcome of no request other than the `default`-only one |

## Left out

- `main()` and argument parsing (whiskycrack.py:61-103) are command-line plumbing: the output-path check, the warning when both `-w` and `-l` are given, and deriving the entry length from the first word. `Generate` takes the entry length directly.
- Opening the output file, append versus overwrite, and the output path (whiskycrack.py:28-30) are I/O. The model returns the written lines instead. As a result, it does not show that the file is opened, and in overwrite mode truncated, before the error checks and the prompt. So a rejected or aborted run still empties the file.
- The `print` messages, including the printed estimate, are console output. The two error messages are kept only as the two `ConfigError` values.
- The `input()` prompt is interactive. It is replaced by the `answer` parameter, the line the user would type.
- Streaming is not modelled: the model returns the whole list of lines instead of writing them one at a time.
- Floating point is not modelled. 1.4 is the exact rational 7/5. For the enormous sizes where `size * L` no longer fits a double (about 1.8e308), Python raises an `OverflowError` while converting it to a float. The model compares exactly instead.
- Estimate.CalculateSize, Estimate.EstimateSize: take a non-negative entry length. For a negative length Python computes a float power, and that case is left out. Its estimate is never above the threshold: it is negative, or `-0.0` when the power underflows. So the prompt never appears for such a length.
- Wordlist.NegativeLengthRaises: does not cover a length below about -1.8e308. `argparse` accepts such an integer. Python cannot convert that exponent to a double, so `len(characters) ** entry_length` at whiskycrack.py:6, reached from line 47, raises `OverflowError` before line 57 runs. The model gives `NegativeRepeat` instead.
- Wordlist.ProductModeLines: does not cover a length beyond the C `ssize_t` range (`2^63 - 1` on 64-bit builds). There `itertools.product` at whiskycrack.py:57 raises `OverflowError` for the `repeat` argument, and the model writes the product instead. This is reachable with a one-character alphabet and a confirmed prompt. With a larger alphabet, computing `len(characters) ** entry_length` for such a length exhausts memory first.
- Estimate.EstimateCoversOutput: models the file as a sequence of characters, not bytes. The text encoding of `open` at whiskycrack.py:30 is left out, and so is newline translation to `\r\n`. With UTF-8, a non-ASCII character takes two to four bytes, so the file can exceed the estimate even from length 3 on (`é` at length 3 writes 7 bytes against an estimate of 4.2).
- `str.lower()` is modelled for ASCII only. No other character lowers to `y`, and lowering never shortens a string, so `y` and `Y` remain the only confirming answers.
- Python strings can hold lone surrogate code points, which Dafny's `char` cannot.
- An absent incremental alphabet (`None`) is modelled as the empty string. Both are false in `if` and `any`.

## Findings

| source | as written | input that shows it | evidently intended | confidence | as-written member | corrected member |
|---|---|---|---|---|---|---|
| whiskycrack.py:39-41 | with `default` set and no other character type, product mode stops with a message that asks for a character type "or use -d" | no seed words, `default` set, no caps, numbers, special or incremental characters | `default` alone selects the 26 lowercase letters, so the run should enumerate them; only a request with an empty alphabet should be rejected | medium, not executed | `Wordlist.DefaultAloneRejected` | `Wordlist.IntendedRejectsEmptyAlphabet` |

`Wordlist.GenerateIntended` is the corrected run. It drops the rejection at
lines 39-41 and keeps everything else. `Wordlist.IntendedAgreesElsewhere`
shows it differs from the program only on the `default`-only request.
`Wordlist.Generate` remains the model of the program as written.

=== FILE: alphabet.dfy ===
/** The character string `generate_wordlist` enumerates over: either the
    lowercase letters alone, or uppercase letters, digits and punctuation in
    that order as their flags select; then the distinct characters of the
    incremental alphabet in code-point order.  The incremental characters are
    not checked against the ones already present, so the result can repeat a
    character.
 */
module Alphabet {
  import opened Order

  /** The ASCII character classes of Python's `string` module. */
  const Lowercase: string := "abcdefghijklmnopqrstuvwxyz"
  const Uppercase: string := "ABCDEFGHIJKLMNOPQRSTUVWXYZ"
  const Digits: string := "0123456789"
  const Punctuation: string := "!\"#$%&'()*+,-./:;<=>?@[\\]^_`{|}~"

  predicate StrictlyIncreasing(s: string) {
    forall i, j :: 0 <= i < j < |s| ==> s[i] < s[j]
  }

  function Chars(s: string): (cs: set<char>) {
    set c | c in s
  }

  /** The ASCII punctuation characters: printable, neither letter, digit nor space. */
  predicate IsPunctuation(c: char) {
    ('!' <= c <= '/') || (':' <= c <= '@') || ('[' <= c <= '`') || ('{' <= c <= '~')
  }

  /** The ASCII characters from `lo` to `hi` in code order. */
  function Span(lo: char, hi: char): (r: string)
    requires lo <= hi < 128 as char
    ensures |r| == hi as int - lo as int + 1
    ensures forall k :: 0 <= k < |r| ==> r[k] as int == lo as int + k
  {
    seq(hi as int - lo as int + 1, i requires 0 <= i < hi as int - lo as int + 1 => (lo as int + i) as char)
  }

  lemma SpanFacts(lo: char, hi: char)
    requires lo <= hi < 128 as char
    ensures StrictlyIncreasing(Span(lo, hi))
    ensures forall c :: c in Span(lo, hi) <==> lo <= c <= hi
  {
    var r := Span(lo, hi);
    forall c | lo <= c <= hi
      ensures c in r
    {
      assert r[c as int - lo as int] == c;
    }
  }

  /** The literal class strings are the code-point ranges they look like. */
  lemma ClassesAsSpans()
    ensures Lowercase == Span('a', 'z')
    ensures Uppercase == Span('A', 'Z')
    ensures Digits == Span('0', '9')
    ensures Punctuation == Span('!', '/') + Span(':', '@') + Span('[', '`') + Span('{', '~')
  {
  }

  lemma LowercaseFacts()
    ensures Distinct(Lowercase) && forall c :: c in Lowercase <==> 'a' <= c <= 'z'
  {
    ClassesAsSpans();
    SpanFacts('a', 'z');
  }

  lemma UppercaseFacts()
    ensures Distinct(Uppercase) && forall c :: c in Uppercase <==> 'A' <= c <= 'Z'
  {
    ClassesAsSpans();
    SpanFacts('A', 'Z');
  }

  lemma DigitsFacts()
    ensures Distinct(Digits) && forall c :: c in Digits <==> '0' <= c <= '9'
  {
    ClassesAsSpans();
    SpanFacts('0', '9');
  }

  lemma PunctuationFacts()
    ensures Distinct(Punctuation) && forall c :: c in Punctuation <==> IsPunctuation(c)
  {
    var a, b, c, d := Span('!', '/'), Span(':', '@'), Span('[', '`'), Span('{', '~');
    assert Punctuation == a + b + c + d by {
      ClassesAsSpans();
    }
    SpanFacts('!', '/');
    SpanFacts(':', '@');
    SpanFacts('[', '`');
    SpanFacts('{', '~');
    DistinctAppend(a, b);
    DistinctAppend(a + b, c);
    DistinctAppend(a + b + c, d);
  }

  // ---- sorted(set(s)) ------------------------------------------------------

  /** Adds `c` to a strictly increasing string, keeping it strictly increasing. */
  function Insert(c: char, t: string): (r: string)
    requires StrictlyIncreasing(t)
    ensures StrictlyIncreasing(r)
    ensures forall x :: x in r <==> x == c || x in t
  {
    if |t| == 0 then [c]
    else if c < t[0] then [c] + t
    else if c == t[0] then t
    else
      var rest := Insert(c, t[1..]);
      assert forall k :: 0 <= k < |rest| ==> t[0] < rest[k] by {
        forall k | 0 <= k < |rest|
          ensures t[0] < rest[k]
        {
          assert rest[k] in rest;
        }
      }
      [t[0]] + rest
  }

  /** Python's `''.join(sorted(set(s)))`: the distinct characters of `s` in
      increasing code-point order. */
  function SortedSet(s: string): (r: string)
    ensures StrictlyIncreasing(r)
    ensures forall x :: x in r <==> x in s
  {
    if |s| == 0 then "" else Insert(s[0], SortedSet(s[1..]))
  }

  /** A strictly increasing string is determined by its characters, so
      `SortedSet(s)` is the only strictly increasing string with the
      characters of `s`. */
  lemma {:induction false} IncreasingUnique(a: string, b: string)
    requires StrictlyIncreasing(a) && StrictlyIncreasing(b)
    requires forall x :: x in a <==> x in b
    ensures a == b
  {
    if |a| > 0 {
      assert a[0] in b;
    }
    if |b| > 0 {
      assert b[0] in a;
    }
    if |a| > 0 {
      assert a[0] == b[0];
      forall x
        ensures x in a[1..] <==> x in b[1..]
      {
        if x in a[1..] {
          assert x in b && x != b[0];
        }
        if x in b[1..] {
          assert x in a && x != a[0];
        }
      }
      IncreasingUnique(a[1..], b[1..]);
      assert a == [a[0]] + a[1..];
      assert b == [b[0]] + b[1..];
    }
  }

  /** Any strictly increasing string with the characters of `s` is `SortedSet(s)`. */
  lemma SortedSetCharacterized(s: string, r: string)
    requires StrictlyIncreasing(r) && forall x :: x in r <==> x in s
    ensures r == SortedSet(s)
  {
    IncreasingUnique(r, SortedSet(s));
  }

  lemma {:induction false} DistinctCard(s: string)
    requires Distinct(s)
    ensures |Chars(s)| == |s|
  {
    if |s| > 0 {
      DistinctCard(s[1..]);
      assert Chars(s) == {s[0]} + Chars(s[1..]);
      assert s[0] !in Chars(s[1..]);
    } else {
      assert Chars(s) == {};
    }
  }

  /** `sorted(set(s))` has one character per distinct character of `s`. */
  lemma SortedSetSize(s: string)
    ensures |SortedSet(s)| == |Chars(s)|
  {
    var r := SortedSet(s);
    DistinctCard(r);
    assert Chars(r) == Chars(s);
  }

  // ---- the alphabet --------------------------------------------------------

  /** The characters chosen by the flags, before the incremental alphabet:
      `default` takes the lowercase letters and ignores the other flags. */
  function Classes(useDefault: bool, caps: bool, numbers: bool, special: bool): (chars: string) {
    if useDefault then Lowercase
    else (if caps then Uppercase else "") + (if numbers then Digits else "") + (if special then Punctuation else "")
  }

  /** Models whiskycrack.py lines 14-26. */
  function BuildAlphabet(useDefault: bool, caps: bool, numbers: bool, special: bool, incremental: string): (alphabet: string) {
    Classes(useDefault, caps, numbers, special) + (if |incremental| > 0 then SortedSet(incremental) else "")
  }

  /** A character is in the alphabet exactly when its class was selected (the
      lowercase letters under `default`, otherwise each flagged class) or it
      occurs in the incremental alphabet. */
  lemma AlphabetMembers(useDefault: bool, caps: bool, numbers: bool, special: bool, incremental: string, c: char)
    ensures c in BuildAlphabet(useDefault, caps, numbers, special, incremental) <==>
      || (useDefault && 'a' <= c <= 'z')
      || (!useDefault && caps && 'A' <= c <= 'Z')
      || (!useDefault && numbers && '0' <= c <= '9')
      || (!useDefault && special && IsPunctuation(c))
      || c in incremental
  {
    LowercaseFacts();
    UppercaseFacts();
    DigitsFacts();
    PunctuationFacts();
  }

  /** Under `default` the caps, numbers and special flags make no difference. */
  lemma DefaultIgnoresFlags(incremental: string, caps: bool, numbers: bool, special: bool,
                            caps': bool, numbers': bool, special': bool)
    ensures BuildAlphabet(true, caps, numbers, special, incremental)
         == BuildAlphabet(true, caps', numbers', special', incremental)
  {
  }

  /** The alphabet is the selected classes followed by the unique strictly
      increasing string made of the incremental alphabet's characters. */
  lemma AlphabetLayout(useDefault: bool, caps: bool, numbers: bool, special: bool, incremental: string)
    ensures var r := BuildAlphabet(useDefault, caps, numbers, special, incremental);
      var k := |Classes(useDefault, caps, numbers, special)|;
      && k <= |r|
      && r[..k] == Classes(useDefault, caps, numbers, special)
      && StrictlyIncreasing(r[k..])
      && Chars(r[k..]) == Chars(incremental)
  {
    var r := BuildAlphabet(useDefault, caps, numbers, special, incremental);
    var k := |Classes(useDefault, caps, numbers, special)|;
    if |incremental| == 0 {
      assert r[k..] == "";
      assert Chars(incremental) == {};
    } else {
      assert r[k..] == SortedSet(incremental);
    }
  }

  /** The alphabet's length: 26 under `default`, otherwise 26, 10 and 32 per
      flagged class; plus one per distinct incremental character. */
  lemma AlphabetSize(useDefault: bool, caps: bool, numbers: bool, special: bool, incremental: string)
    ensures |BuildAlphabet(useDefault, caps, numbers, special, incremental)| ==
      (if useDefault then 26
       else (if caps then 26 else 0) + (if numbers then 10 else 0) + (if special then 32 else 0))
      + |Chars(incremental)|
  {
    SortedSetSize(incremental);
    if |incremental| == 0 {
      assert Chars(incremental) == {};
    }
  }

  lemma DistinctAppend(a: string, b: string)
    ensures Distinct(a + b) <==> Distinct(a) && Distinct(b) && Chars(a) !! Chars(b)
  {
    if Distinct(a + b) {
      forall i, j | 0 <= i < j < |a|
        ensures a[i] != a[j]
      {
        assert (a + b)[i] == a[i] && (a + b)[j] == a[j];
      }
      forall i, j | 0 <= i < j < |b|
        ensures b[i] != b[j]
      {
        assert (a + b)[|a| + i] == b[i] && (a + b)[|a| + j] == b[j];
      }
      forall c | c in Chars(a)
        ensures c !in Chars(b)
      {
        var i :| 0 <= i < |a| && a[i] == c;
        forall j | 0 <= j < |b|
          ensures b[j] != c
        {
          assert (a + b)[i] == a[i] && (a + b)[|a| + j] == b[j];
        }
      }
    }
    if Distinct(a) && Distinct(b) && Chars(a) !! Chars(b) {
      forall i, j | 0 <= i < j < |a + b|
        ensures (a + b)[i] != (a + b)[j]
      {
        if j < |a| {
          assert (a + b)[i] == a[i] && (a + b)[j] == a[j];
        } else if i < |a| {
          assert (a + b)[i] == a[i] && a[i] in Chars(a);
          assert (a + b)[j] == b[j - |a|] && b[j - |a|] in Chars(b);
        } else {
          assert (a + b)[i] == b[i - |a|] && (a + b)[j] == b[j - |a|];
        }
      }
    }
  }

  lemma IncreasingDistinct(s: string)
    requires StrictlyIncreasing(s)
    ensures Distinct(s)
  {
  }

  lemma ClassesDistinct(useDefault: bool, caps: bool, numbers: bool, special: bool)
    ensures Distinct(Classes(useDefault, caps, numbers, special))
  {
    LowercaseFacts();
    UppercaseFacts();
    DigitsFacts();
    PunctuationFacts();
    var U := if caps then Uppercase else "";
    var D := if numbers then Digits else "";
    var P := if special then Punctuation else "";
    DistinctAppend(U, D);
    DistinctAppend(U + D, P);
  }

  /** The alphabet repeats a character exactly when the incremental alphabet
      shares a character with the selected classes. */
  lemma AlphabetRepeats(useDefault: bool, caps: bool, numbers: bool, special: bool, incremental: string)
    ensures Distinct(BuildAlphabet(useDefault, caps, numbers, special, incremental)) <==>
      forall c :: c in incremental ==> c !in Classes(useDefault, caps, numbers, special)
  {
    var C := Classes(useDefault, caps, numbers, special);
    var T := if |incremental| > 0 then SortedSet(incremental) else "";
    assert BuildAlphabet(useDefault, caps, numbers, special, incremental) == C + T;
    ClassesDistinct(useDefault, caps, numbers, special);
    IncreasingDistinct(T);
    assert Chars(T) == Chars(incremental);
    AppendRepeats(C, T, incremental);
  }

  lemma AppendRepeats(C: string, T: string, incremental: string)
    requires Distinct(C) && Distinct(T) && Chars(T) == Chars(incremental)
    ensures Distinct(C + T) <==> forall c :: c in incremental ==> c !in C
  {
    DistinctAppend(C, T);
    if forall c :: c in incremental ==> c !in C {
      forall c | c in Chars(C)
        ensures c !in Chars(T)
      {
      }
    } else {
      var c :| c in incremental && c in C;
      assert c in Chars(C) && c in Chars(T);
    }
  }
}

=== FILE: estimate.dfy ===
/** `calculate_wordlist_size` and `estimate_wordlist_size`: the number of
    lines product mode would write, and an advisory byte count of 1.4 bytes
    per generated character.  The factor 1.4 is the exact rational 7/5 here.
 */
module Estimate {
  import opened Tuples
  import opened Output

  const BytesPerCharacter: real := 1.4
  /** Estimates strictly above this many bytes need the user's confirmation. */
  const Threshold: real := 1000000.0

  /** Models whiskycrack.py lines 5-6: the number of lines product mode writes. */
  function CalculateSize(entryLength: nat, characters: string): (size: nat)
    ensures size == |Product(characters, entryLength)|
  {
    ProductCount(characters, entryLength);
    Pow(|characters|, entryLength)
  }

  /** Models whiskycrack.py lines 8-11: 1.4 bytes for every character of
      every line product mode writes. */
  function EstimateSize(entryLength: nat, characters: string): (bytes: real)
    ensures bytes == BytesPerCharacter * LineCharacters(Product(characters, entryLength)) as real
  {
    ProductLines(characters, entryLength);
    UniformLineCharacters(Product(characters, entryLength), entryLength);
    (CalculateSize(entryLength, characters) * entryLength) as real * BytesPerCharacter
  }

  /** The confirmation gate of whiskycrack.py line 50. */
  predicate ExceedsThreshold(entryLength: nat, characters: string) {
    EstimateSize(entryLength, characters) > Threshold
  }

  lemma {:induction false} UniformLineCharacters(lines: seq<string>, L: nat)
    requires forall k :: 0 <= k < |lines| ==> |lines[k]| == L
    ensures LineCharacters(lines) == |lines| * L
  {
    if |lines| > 0 {
      UniformLineCharacters(lines[..|lines| - 1], L);
      assert |lines| * L == (|lines| - 1) * L + L;
    }
  }

  /** The gate in integers: 7 * |A|^L * L > 5,000,000. */
  lemma ExceedsThresholdScaled(entryLength: nat, characters: string)
    ensures ExceedsThreshold(entryLength, characters) <==>
      7 * (Pow(|characters|, entryLength) * entryLength) > 5000000
  {
  }

  lemma {:induction false} PowMonotoneBase(m: nat, n: nat, L: nat)
    requires m <= n
    ensures Pow(m, L) <= Pow(n, L)
  {
    if L > 0 {
      PowMonotoneBase(m, n, L - 1);
      MulMonotone(m, Pow(m, L - 1), n, Pow(n, L - 1));
    }
  }

  lemma {:induction false} PowMonotoneExponent(n: nat, K: nat, L: nat)
    requires 1 <= n && K <= L
    ensures Pow(n, K) <= Pow(n, L)
    decreases L
  {
    if K < L {
      PowMonotoneExponent(n, K, L - 1);
      MulMonotone(1, Pow(n, L - 1), n, Pow(n, L - 1));
    }
  }

  lemma MulMonotone(a: nat, b: nat, c: nat, d: nat)
    requires a <= c && b <= d
    ensures a * b <= c * d
  {
    assert a * b <= c * b;
    assert c * b <= c * d;
  }

  /** A larger alphabet or a longer entry never lowers the estimate. */
  lemma EstimateMonotone(K: nat, L: nat, small: string, large: string)
    requires K <= L && |small| <= |large|
    ensures EstimateSize(K, small) <= EstimateSize(L, large)
  {
    var m, n := |small|, |large|;
    if n == 0 {
      assert Pow(m, K) * K == 0 by {
        if K > 0 { assert Pow(m, K) == m * Pow(m, K - 1); }
      }
    } else {
      PowMonotoneBase(m, n, K);
      PowMonotoneExponent(n, K, L);
      MulMonotone(Pow(m, K), K, Pow(n, L), L);
    }
  }

  /** Each written line also carries a newline, so the file holds
      |A|^L * (L + 1) characters.  The estimate covers that only from length 3
      on (or when nothing is written): for lengths 1 and 2 it undercounts. */
  lemma EstimateCoversOutput(entryLength: nat, characters: string)
    ensures var lines := Product(characters, entryLength);
      EstimateSize(entryLength, characters) >= |Serialize(lines)| as real
      <==> entryLength >= 3 || |lines| == 0
  {
    var lines := Product(characters, entryLength);
    SerializeLength(lines);
    ProductLines(characters, entryLength);
    UniformLineCharacters(lines, entryLength);
    var n := |lines|;
    assert LineCharacters(lines) + n == n * entryLength + n;
    CoverArithmetic(n, entryLength);
  }

  lemma CoverArithmetic(S: nat, L: nat)
    ensures (S * L) as real * BytesPerCharacter >= (S * L + S) as real <==> L >= 3 || S == 0
  {
    var a := S * L;
    assert (a as real * BytesPerCharacter >= (a + S) as real) <==> 2 * a >= 5 * S;
    if L >= 3 {
      MulMonotone(S, 3, S, L);
    } else if S > 0 {
      MulMonotone(S, L, S, 2);
    }
  }
}

=== FILE: order.dfy ===
/** Strict lexicographic order on sequences of positions.

    `itertools.product` and `itertools.permutations` both work on positions
    (indices into the alphabet or into the word list) and emit their tuples in
    lexicographic order of those positions; this module gives that order a
    name and the few facts the enumeration proofs need.
 */
module Order {

  /** `a` comes strictly before `b`: a proper prefix is smaller, otherwise the
      first position where they differ decides. */
  predicate Less(a: seq<nat>, b: seq<nat>)
    decreases |a|
  {
    |b| > 0 && (|a| == 0 || a[0] < b[0] || (a[0] == b[0] && Less(a[1..], b[1..])))
  }

  /** No element occurs twice. */
  predicate Distinct<T(==)>(s: seq<T>) {
    forall i, j :: 0 <= i < j < |s| ==> s[i] != s[j]
  }

  /** Every element comes strictly before every later element. */
  predicate Sorted(s: seq<seq<nat>>) {
    forall i, j :: 0 <= i < j < |s| ==> Less(s[i], s[j])
  }

  /** Every element of `a` comes strictly before every element of `b`. */
  predicate AllBefore(a: seq<seq<nat>>, b: seq<seq<nat>>) {
    forall i, j :: 0 <= i < |a| && 0 <= j < |b| ==> Less(a[i], b[j])
  }

  /** Puts position `x` in front of every tuple of `T`. */
  function Prepend(x: nat, T: seq<seq<nat>>): (r: seq<seq<nat>>)
    ensures |r| == |T|
    ensures forall k :: 0 <= k < |r| ==> r[k] == [x] + T[k]
  {
    seq(|T|, k requires 0 <= k < |T| => [x] + T[k])
  }

  lemma {:induction false} LessIrreflexive(a: seq<nat>)
    ensures !Less(a, a)
    decreases |a|
  {
    if |a| > 0 {
      LessIrreflexive(a[1..]);
    }
  }

  /** A strictly sorted sequence repeats no element. */
  lemma SortedDistinct(s: seq<seq<nat>>)
    requires Sorted(s)
    ensures Distinct(s)
  {
    forall i, j | 0 <= i < j < |s|
      ensures s[i] != s[j]
    {
      LessIrreflexive(s[i]);
    }
  }

  lemma SortedAppend(a: seq<seq<nat>>, b: seq<seq<nat>>)
    requires Sorted(a) && Sorted(b) && AllBefore(a, b)
    ensures Sorted(a + b)
  {
    forall i, j | 0 <= i < j < |a + b|
      ensures Less((a + b)[i], (a + b)[j])
    {
      if j < |a| {
        assert Less(a[i], a[j]);
      } else if i < |a| {
        assert Less(a[i], b[j - |a|]);
      } else {
        assert Less(b[i - |a|], b[j - |a|]);
      }
    }
  }

  /** A common first position does not change the order of the rest. */
  lemma PrependSorted(x: nat, T: seq<seq<nat>>)
    requires Sorted(T)
    ensures Sorted(Prepend(x, T))
  {
    var P := Prepend(x, T);
    forall i, j | 0 <= i < j < |P|
      ensures Less(P[i], P[j])
    {
      assert P[i][1..] == T[i] && P[j][1..] == T[j];
      assert Less(T[i], T[j]);
    }
  }
}

=== FILE: output.dfy ===
/** The output file's text: every line `file.write` receives is followed by a
    newline, with no header, separator or escaping.  Reading the text back
    line by line recovers the lines, unless a line itself contains a newline
    (a seed word is written verbatim, so one with a newline splits).
 */
module Output {

  const Newline: char := '\n'

  /** The text of the file after writing `lines` in order. */
  function Serialize(lines: seq<string>): (text: string) {
    if |lines| == 0 then "" else Serialize(lines[..|lines| - 1]) + lines[|lines| - 1] + [Newline]
  }

  /** The total length of `lines`, line terminators not counted. */
  function LineCharacters(lines: seq<string>): (count: nat) {
    if |lines| == 0 then 0 else LineCharacters(lines[..|lines| - 1]) + |lines[|lines| - 1]|
  }

  /** The position of the first newline in `text`, or `|text|` if none. */
  function NewlineAt(text: string): (i: nat)
    ensures i <= |text|
    ensures forall j :: 0 <= j < i ==> text[j] != Newline
    ensures i < |text| ==> text[i] == Newline
  {
    if |text| == 0 || text[0] == Newline then 0 else 1 + NewlineAt(text[1..])
  }

  /** Splits text into newline-terminated lines; an unterminated tail is a
      last line of its own. */
  function Parse(text: string): (lines: seq<string>)
    decreases |text|
  {
    if |text| == 0 then []
    else
      var i := NewlineAt(text);
      if i == |text| then [text] else [text[..i]] + Parse(text[i + 1..])
  }

  predicate NoNewlines(lines: seq<string>) {
    forall k :: 0 <= k < |lines| ==> Newline !in lines[k]
  }

  lemma SerializeCons(x: string, rest: seq<string>)
    ensures Serialize([x] + rest) == x + [Newline] + Serialize(rest)
    decreases |rest|
  {
    if |rest| > 0 {
      var front := rest[..|rest| - 1];
      SerializeCons(x, front);
      assert ([x] + rest)[..|rest|] == [x] + front;
    }
  }

  /** Reading the file back gives the lines written, when none of them holds
      a newline. */
  lemma {:induction false} ParseSerialize(lines: seq<string>)
    requires NoNewlines(lines)
    ensures Parse(Serialize(lines)) == lines
    decreases |lines|
  {
    if |lines| > 0 {
      var x, rest := lines[0], lines[1..];
      assert lines == [x] + rest;
      SerializeCons(x, rest);
      var text := x + [Newline] + Serialize(rest);
      assert NewlineAt(text) == |x| by {
        assert Newline !in x;
        assert forall j :: 0 <= j < |x| ==> text[j] == x[j];
        assert text[|x|] == Newline;
      }
      assert text[..|x|] == x;
      assert text[|x| + 1..] == Serialize(rest);
      assert NoNewlines(rest) by {
        forall k | 0 <= k < |rest|
          ensures Newline !in rest[k]
        {
          assert rest[k] == lines[k + 1];
        }
      }
      ParseSerialize(rest);
    }
  }

  /** The file holds one character per line character plus one newline per line. */
  lemma {:induction false} SerializeLength(lines: seq<string>)
    ensures |Serialize(lines)| == LineCharacters(lines) + |lines|
    decreases |lines|
  {
    if |lines| > 0 {
      SerializeLength(lines[..|lines| - 1]);
    }
  }

  /** Writes the lines one after another, as the `file.write(line + '\n')`
      loops do; `SerializeLength` gives the size of the result and
      `ParseSerialize` reads it back. */
  method WriteLines(lines: seq<string>) returns (text: string)
    ensures text == Serialize(lines)
  {
    text := "";
    var i := 0;
    while i < |lines|
      invariant 0 <= i <= |lines|
      invariant text == Serialize(lines[..i])
    {
      assert lines[..i + 1][..i] == lines[..i];
      text := text + lines[i] + [Newline];
      i := i + 1;
    }
    assert lines[..|lines|] == lines;
  }
}

=== FILE: permutations.dfy ===
/** `itertools.permutations(words, len(words))`: every ordering of the
    positions of a list, in lexicographic order of positions.  Orderings are
    of positions, not of values, so a word list with a repeated word yields
    repeated concatenations.
 */
module Permutations {
  import opened Order

  function Factorial(n: nat): (f: nat) {
    if n == 0 then 1 else n * Factorial(n - 1)
  }

  /** `s` with its element at `i` taken out. */
  function Remove(s: seq<nat>, i: nat): (r: seq<nat>)
    requires i < |s|
    ensures |r| == |s| - 1
  {
    s[..i] + s[i + 1..]
  }

  /** The orderings of `s`: for each `i` in turn, `s[i]` followed by every
      ordering of the rest. */
  function Perms(s: seq<nat>): (orderings: seq<seq<nat>>)
    decreases |s|, 1, 0
  {
    if |s| == 0 then [[]] else PermsFrom(s, 0)
  }

  /** The orderings of `s` that start with `s[i]`, `s[i + 1]`, ... */
  function PermsFrom(s: seq<nat>, i: nat): (orderings: seq<seq<nat>>)
    decreases |s|, 0, |s| - i
  {
    if i >= |s| then [] else Prepend(s[i], Perms(Remove(s, i))) + PermsFrom(s, i + 1)
  }

  /** The positions `0, 1, ..., n - 1`. */
  function Range(n: nat): (r: seq<nat>)
    ensures |r| == n && forall i :: 0 <= i < n ==> r[i] == i
  {
    seq(n, i requires 0 <= i < n => i)
  }

  /** The position orderings `itertools.permutations` visits for a list of length `n`. */
  function IndexPerms(n: nat): (orderings: seq<seq<nat>>) {
    Perms(Range(n))
  }

  predicate IsPermutationOf(p: seq<nat>, s: seq<nat>) {
    multiset(p) == multiset(s)
  }

  predicate Increasing(s: seq<nat>) {
    forall i, j :: 0 <= i < j < |s| ==> s[i] < s[j]
  }

  lemma RemoveMultiset(s: seq<nat>, i: nat)
    requires i < |s|
    ensures multiset(Remove(s, i)) + multiset{s[i]} == multiset(s)
  {
    assert s == s[..i] + [s[i]] + s[i + 1..];
  }

  // ---- count ---------------------------------------------------------------

  /** There are `|s|!` orderings. */
  lemma {:induction false} PermsCount(s: seq<nat>)
    ensures |Perms(s)| == Factorial(|s|)
    decreases |s|, 1, 0
  {
    if |s| > 0 {
      PermsFromCount(s, 0);
    }
  }

  lemma {:induction false} PermsFromCount(s: seq<nat>, i: nat)
    requires 0 < |s| && i <= |s|
    ensures |PermsFrom(s, i)| == (|s| - i) * Factorial(|s| - 1)
    decreases |s|, 0, |s| - i
  {
    if i < |s| {
      PermsCount(Remove(s, i));
      PermsFromCount(s, i + 1);
      assert (|s| - i) * Factorial(|s| - 1) == Factorial(|s| - 1) + (|s| - (i + 1)) * Factorial(|s| - 1);
    }
  }

  // ---- membership ----------------------------------------------------------

  /** The orderings produced are exactly the rearrangements of `s`. */
  lemma {:induction false} PermsMembers(s: seq<nat>, p: seq<nat>)
    ensures p in Perms(s) <==> IsPermutationOf(p, s)
    decreases |s|, 1, 0
  {
    if |s| == 0 {
      assert IsPermutationOf(p, s) <==> p == [];
    } else {
      if IsPermutationOf(p, s) {
        assert |multiset(p)| == |multiset(s)|;
        assert |p| == |s|;
        assert p[0] in multiset(s);
        var j :| 0 <= j < |s| && s[j] == p[0];
        ConsPermutation(p, s, j);
        PermsFromContains(s, 0, p, j);
      }
      if p in Perms(s) {
        var j := PermsFromHead(s, 0, p);
        ConsPermutation(p, s, j);
      }
    }
  }

  /** With matching heads, `p` rearranges `s` exactly when its tail rearranges the rest. */
  lemma ConsPermutation(p: seq<nat>, s: seq<nat>, j: nat)
    requires 0 < |p| && j < |s| && p[0] == s[j]
    ensures IsPermutationOf(p, s) <==> IsPermutationOf(p[1..], Remove(s, j))
  {
    RemoveMultiset(s, j);
    assert p == [p[0]] + p[1..];
    assert multiset(p) == multiset(p[1..]) + multiset{p[0]};
    assert multiset(p[1..]) == multiset(p) - multiset{p[0]};
    assert multiset(Remove(s, j)) == multiset(s) - multiset{s[j]};
  }

  /** Every element of `PermsFrom(s, i)` starts with some `s[j]`, `j >= i`,
      followed by a rearrangement of `s` without that element. */
  lemma {:induction false} PermsFromHead(s: seq<nat>, i: nat, p: seq<nat>) returns (j: nat)
    requires p in PermsFrom(s, i)
    ensures i <= j < |s| && |p| > 0 && p[0] == s[j] && IsPermutationOf(p[1..], Remove(s, j))
    decreases |s|, 0, |s| - i
  {
    var P := Prepend(s[i], Perms(Remove(s, i)));
    if p in P {
      var k :| 0 <= k < |P| && P[k] == p;
      assert p[1..] == Perms(Remove(s, i))[k];
      PermsMembers(Remove(s, i), p[1..]);
      j := i;
    } else {
      j := PermsFromHead(s, i + 1, p);
    }
  }

  /** Conversely, `s[j]` (`j >= i`) followed by a rearrangement of `s` without
      it is an element of `PermsFrom(s, i)`. */
  lemma {:induction false} PermsFromContains(s: seq<nat>, i: nat, p: seq<nat>, j: nat)
    requires i <= j < |s| && |p| > 0 && p[0] == s[j] && IsPermutationOf(p[1..], Remove(s, j))
    ensures p in PermsFrom(s, i)
    decreases |s|, 0, |s| - i
  {
    if j == i {
      PermsMembers(Remove(s, i), p[1..]);
      var k :| 0 <= k < |Perms(Remove(s, i))| && Perms(Remove(s, i))[k] == p[1..];
      assert p == [s[i]] + p[1..];
      assert Prepend(s[i], Perms(Remove(s, i)))[k] == p;
    } else {
      PermsFromContains(s, i + 1, p, j);
    }
  }

  /** Every element of `PermsFrom(s, i)` is non-empty and starts with some `s[j]`, `j >= i`. */
  lemma PermsFromHeads(s: seq<nat>, i: nat, k: nat)
    requires k < |PermsFrom(s, i)|
    ensures |PermsFrom(s, i)[k]| > 0
    ensures exists j :: i <= j < |s| && PermsFrom(s, i)[k][0] == s[j]
  {
    var p := PermsFrom(s, i)[k];
    var j := PermsFromHead(s, i, p);
  }

  // ---- order ---------------------------------------------------------------

  lemma RemoveIncreasing(s: seq<nat>, i: nat)
    requires i < |s| && Increasing(s)
    ensures Increasing(Remove(s, i))
  {
    var r := Remove(s, i);
    forall a, b | 0 <= a < b < |r|
      ensures r[a] < r[b]
    {
      var a' := if a < i then a else a + 1;
      var b' := if b < i then b else b + 1;
      assert r[a] == s[a'] && r[b] == s[b'];
    }
  }

  /** For increasing `s`, the orderings come out strictly increasing. */
  lemma {:induction false} PermsSorted(s: seq<nat>)
    requires Increasing(s)
    ensures Sorted(Perms(s))
    decreases |s|, 1, 0
  {
    if |s| > 0 {
      PermsFromSorted(s, 0);
    }
  }

  lemma {:induction false} PermsFromSorted(s: seq<nat>, i: nat)
    requires Increasing(s)
    ensures Sorted(PermsFrom(s, i))
    decreases |s|, 0, |s| - i
  {
    if i < |s| {
      var T := Perms(Remove(s, i));
      var P := Prepend(s[i], T);
      var R := PermsFrom(s, i + 1);
      RemoveIncreasing(s, i);
      PermsSorted(Remove(s, i));
      PrependSorted(s[i], T);
      PermsFromSorted(s, i + 1);
      assert AllBefore(P, R) by {
        forall a, b | 0 <= a < |P| && 0 <= b < |R|
          ensures Less(P[a], R[b])
        {
          PermsFromHeads(s, i + 1, b);
          assert P[a][0] == s[i] < R[b][0];
        }
      }
      SortedAppend(P, R);
    }
  }

  /** `p` lists each of the positions `0 .. n - 1` exactly once. */
  predicate IsPositionOrdering(p: seq<nat>, n: nat) {
    && |p| == n
    && (forall j :: 0 <= j < |p| ==> p[j] < n)
    && Distinct(p)
  }

  /** The position orderings for a list of length `n`: `n!` of them, exactly
      the orderings of `0 .. n - 1`, in strictly increasing lexicographic
      order (so none twice). */
  lemma IndexPermsFacts(n: nat)
    ensures |IndexPerms(n)| == Factorial(n)
    ensures forall p :: p in IndexPerms(n) <==> IsPositionOrdering(p, n)
    ensures Sorted(IndexPerms(n))
    ensures forall k :: 0 <= k < |IndexPerms(n)| ==> IsPositionOrdering(IndexPerms(n)[k], n)
  {
    PermsCount(Range(n));
    forall p
      ensures p in IndexPerms(n) <==> IsPositionOrdering(p, n)
    {
      PermsMembers(Range(n), p);
      if IsPermutationOf(p, Range(n)) {
        PermutationIsOrdering(n, p);
      }
      if IsPositionOrdering(p, n) {
        OrderingIsPermutation(n, p);
      }
    }
    PermsSorted(Range(n));
    forall k | 0 <= k < |IndexPerms(n)|
      ensures IsPositionOrdering(IndexPerms(n)[k], n)
    {
      assert IndexPerms(n)[k] in IndexPerms(n);
    }
  }

  lemma PermutationIsOrdering(n: nat, p: seq<nat>)
    requires IsPermutationOf(p, Range(n))
    ensures IsPositionOrdering(p, n)
  {
    assert |p| == |multiset(p)| == n;
    forall j | 0 <= j < |p|
      ensures p[j] < n
    {
      assert p[j] in multiset(p);
      assert p[j] in Range(n);
    }
    forall i, j | 0 <= i < j < |p|
      ensures p[i] != p[j]
    {
      if p[i] == p[j] {
        CountedTwice(p, i, j);
        RangeCounts(n, p[i]);
      }
    }
  }

  lemma OrderingIsPermutation(n: nat, p: seq<nat>)
    requires IsPositionOrdering(p, n)
    ensures IsPermutationOf(p, Range(n))
  {
    var A, B := multiset(p), multiset(Range(n));
    forall x
      ensures A[x] <= B[x]
    {
      DistinctCount(p, x);
      RangeCounts(n, x);
      if x in p {
        var j :| 0 <= j < |p| && p[j] == x;
      }
    }
    assert A <= B;
    assert |A| == |B|;
    var C := B - A;
    assert B == A + C;
    assert |C| == 0;
    assert C == multiset{};
  }

  lemma {:induction false} DistinctCount(p: seq<nat>, x: nat)
    requires Distinct(p)
    ensures multiset(p)[x] <= 1
  {
    if |p| > 0 {
      DistinctCount(p[1..], x);
      assert p == [p[0]] + p[1..];
      assert multiset(p) == multiset{p[0]} + multiset(p[1..]);
      if x == p[0] {
        assert x !in p[1..];
      }
    }
  }

  lemma CountedTwice(p: seq<nat>, i: nat, j: nat)
    requires i < j < |p| && p[i] == p[j]
    ensures multiset(p)[p[i]] >= 2
  {
    var q := p[..i] + p[i + 1..];
    assert p == p[..i] + [p[i]] + p[i + 1..];
    assert multiset(p) == multiset(q) + multiset{p[i]};
    assert q[j - 1] == p[j];
    assert p[j] in multiset(q);
  }

  lemma RangeCounts(n: nat, x: nat)
    ensures multiset(Range(n))[x] == if x < n then 1 else 0
  {
    if n > 0 {
      RangeCounts(n - 1, x);
      assert Range(n) == Range(n - 1) + [n - 1];
    }
  }
}

=== FILE: tuples.dfy ===
/** `itertools.product(characters, repeat=L)`: every length-`L` tuple of
    alphabet positions, first position outermost and last position varying
    fastest, each tuple spelled out as the string of the characters at those
    positions.  Because the enumeration runs over positions, a character that
    occurs twice in the alphabet yields its strings twice.
 */
module Tuples {
  import opened Order

  function Pow(n: nat, L: nat): (p: nat) {
    if L == 0 then 1 else n * Pow(n, L - 1)
  }

  /** `t` is a tuple of `L` positions, each below `n`. */
  predicate IsTuple(t: seq<nat>, n: nat, L: nat) {
    |t| == L && forall j :: 0 <= j < |t| ==> t[j] < n
  }

  /** The rows of the outermost loop from first position `i` on: first
      position `i` followed by every tuple of `T`, then `i + 1`, ... up to `n - 1`. */
  function Blocks(n: nat, T: seq<seq<nat>>, i: nat): (block: seq<seq<nat>>)
    decreases n - i
  {
    if i >= n then [] else Prepend(i, T) + Blocks(n, T, i + 1)
  }

  /** The position tuples `itertools.product` visits, in its order. */
  function IndexTuples(n: nat, L: nat): (tuples: seq<seq<nat>>) {
    if L == 0 then [[]] else Blocks(n, IndexTuples(n, L - 1), 0)
  }

  lemma {:induction false} BlocksCount(n: nat, T: seq<seq<nat>>, i: nat)
    requires i <= n
    ensures |Blocks(n, T, i)| == (n - i) * |T|
    decreases n - i
  {
    if i < n {
      BlocksCount(n, T, i + 1);
      assert (n - i) * |T| == |T| + (n - (i + 1)) * |T|;
    }
  }

  /** There are `n^L` tuples. */
  lemma {:induction false} IndexTuplesCount(n: nat, L: nat)
    ensures |IndexTuples(n, L)| == Pow(n, L)
  {
    if L > 0 {
      IndexTuplesCount(n, L - 1);
      BlocksCount(n, IndexTuples(n, L - 1), 0);
    }
  }

  lemma {:induction false} BlocksMembers(n: nat, T: seq<seq<nat>>, i: nat, t: seq<nat>)
    ensures t in Blocks(n, T, i) <==> |t| > 0 && i <= t[0] < n && t[1..] in T
    decreases n - i
  {
    if i < n {
      BlocksMembers(n, T, i + 1, t);
      var P := Prepend(i, T);
      assert Blocks(n, T, i) == P + Blocks(n, T, i + 1);
      if t in P {
        var k :| 0 <= k < |P| && P[k] == t;
        assert t[1..] == T[k];
      }
      if |t| > 0 && t[0] == i && t[1..] in T {
        var k :| 0 <= k < |T| && T[k] == t[1..];
        assert P[k] == t;
      }
    }
  }

  /** The tuples visited are exactly the length-`L` tuples over `n` positions. */
  lemma {:induction false} IndexTuplesMembers(n: nat, L: nat, t: seq<nat>)
    ensures t in IndexTuples(n, L) <==> IsTuple(t, n, L)
  {
    if L == 0 {
      assert IsTuple(t, n, L) <==> t == [];
    } else {
      var T := IndexTuples(n, L - 1);
      BlocksMembers(n, T, 0, t);
      if |t| > 0 {
        IndexTuplesMembers(n, L - 1, t[1..]);
        assert IsTuple(t, n, L) <==> t[0] < n && IsTuple(t[1..], n, L - 1) by {
          if IsTuple(t[1..], n, L - 1) && t[0] < n {
            forall j | 0 <= j < |t|
              ensures t[j] < n
            {
              if j > 0 { assert t[j] == t[1..][j - 1]; }
            }
          }
        }
      }
    }
  }

  lemma IndexTuplesShape(n: nat, L: nat)
    ensures forall k :: 0 <= k < |IndexTuples(n, L)| ==> IsTuple(IndexTuples(n, L)[k], n, L)
  {
    forall k | 0 <= k < |IndexTuples(n, L)|
      ensures IsTuple(IndexTuples(n, L)[k], n, L)
    {
      IndexTuplesMembers(n, L, IndexTuples(n, L)[k]);
    }
  }

  lemma {:induction false} BlocksSorted(n: nat, T: seq<seq<nat>>, i: nat)
    requires Sorted(T)
    ensures Sorted(Blocks(n, T, i))
    ensures forall k :: 0 <= k < |Blocks(n, T, i)| ==> |Blocks(n, T, i)[k]| > 0 && i <= Blocks(n, T, i)[k][0]
    decreases n - i
  {
    if i < n {
      var P := Prepend(i, T);
      var R := Blocks(n, T, i + 1);
      BlocksSorted(n, T, i + 1);
      PrependSorted(i, T);
      assert AllBefore(P, R) by {
        forall a, b | 0 <= a < |P| && 0 <= b < |R|
          ensures Less(P[a], R[b])
        {
          assert P[a][0] == i < R[b][0];
        }
      }
      SortedAppend(P, R);
    }
  }

  /** Tuples are visited in strictly increasing lexicographic order, so no tuple twice. */
  lemma {:induction false} IndexTuplesSorted(n: nat, L: nat)
    ensures Sorted(IndexTuples(n, L))
  {
    if L > 0 {
      IndexTuplesSorted(n, L - 1);
      BlocksSorted(n, IndexTuples(n, L - 1), 0);
    }
  }

  /** The string of the characters at positions `t`. */
  function Spell(A: string, t: seq<nat>): (w: string)
    requires forall j :: 0 <= j < |t| ==> t[j] < |A|
  {
    seq(|t|, j requires 0 <= j < |t| => A[t[j]])
  }

  /** The lines `itertools.product(A, repeat=L)` yields, joined into strings. */
  function Product(A: string, L: nat): (lines: seq<string>) {
    var T := IndexTuples(|A|, L);
    IndexTuplesShape(|A|, L);
    seq(|T|, k requires 0 <= k < |T| => Spell(A, T[k]))
  }

  /** The number of lines is `|A|^L`, repeated characters counted separately. */
  lemma ProductCount(A: string, L: nat)
    ensures |Product(A, L)| == Pow(|A|, L)
  {
    IndexTuplesCount(|A|, L);
  }

  /** Every line has length `L` and uses only characters of `A`. */
  lemma ProductLines(A: string, L: nat)
    ensures forall k :: 0 <= k < |Product(A, L)| ==>
      |Product(A, L)[k]| == L && forall j :: 0 <= j < L ==> Product(A, L)[k][j] in A
  {
    var T := IndexTuples(|A|, L);
    IndexTuplesShape(|A|, L);
    forall k, j | 0 <= k < |Product(A, L)| && 0 <= j < L
      ensures Product(A, L)[k][j] in A
    {
      assert Product(A, L)[k][j] == A[T[k][j]];
    }
  }

  /** Every string of length `L` over `A` is among the lines. */
  lemma ProductComplete(A: string, L: nat, w: string)
    requires |w| == L && forall j :: 0 <= j < |w| ==> w[j] in A
    ensures w in Product(A, L)
  {
    var t := seq(L, j requires 0 <= j < L => IndexOf(A, w[j]));
    IndexTuplesMembers(|A|, L, t);
    var T := IndexTuples(|A|, L);
    var k :| 0 <= k < |T| && T[k] == t;
    assert Product(A, L)[k] == w;
  }

  /** The first position of `c` in `A`. */
  function IndexOf(A: string, c: char): (i: nat)
    requires c in A
    ensures i < |A| && A[i] == c
  {
    if A[0] == c then 0 else 1 + IndexOf(A[1..], c)
  }

  /** Line `k` spells the `k`-th position tuple, and the tuples strictly
      increase lexicographically: the last position varies fastest. */
  lemma ProductOrder(A: string, L: nat)
    ensures |Product(A, L)| == |IndexTuples(|A|, L)|
    ensures Sorted(IndexTuples(|A|, L))
    ensures forall k :: 0 <= k < |Product(A, L)| ==>
      IsTuple(IndexTuples(|A|, L)[k], |A|, L) && Product(A, L)[k] == Spell(A, IndexTuples(|A|, L)[k])
  {
    IndexTuplesSorted(|A|, L);
    IndexTuplesShape(|A|, L);
  }

  /** Length zero yields exactly one empty line. */
  lemma ProductOfLengthZero(A: string)
    ensures Product(A, 0) == [""]
  {
    assert IndexTuples(|A|, 0) == [[]];
    assert Spell(A, []) == "";
  }

  /** With no repeated character, different tuples spell different strings. */
  lemma SpellInjective(A: string, L: nat, s: seq<nat>, t: seq<nat>)
    requires Distinct(A) && IsTuple(s, |A|, L) && IsTuple(t, |A|, L)
    requires Spell(A, s) == Spell(A, t)
    ensures s == t
  {
    forall m | 0 <= m < L
      ensures s[m] == t[m]
    {
      assert A[s[m]] == Spell(A, s)[m] == Spell(A, t)[m] == A[t[m]];
    }
  }

  /** The lines repeat no string exactly when the alphabet repeats no
      character (or the length is 0, which writes one empty line): a repeated
      character `A[a] == A[b]` makes the tuples `a 0 0 ...` and `b 0 0 ...`
      spell the same line. */
  lemma ProductDistinct(A: string, L: nat)
    ensures Distinct(Product(A, L)) <==> L == 0 || Distinct(A)
  {
    var T := IndexTuples(|A|, L);
    var P := Product(A, L);
    ProductOrder(A, L);
    if L == 0 {
      ProductOfLengthZero(A);
    } else if Distinct(A) {
      SortedDistinct(T);
      forall i, j | 0 <= i < j < |P|
        ensures P[i] != P[j]
      {
        if P[i] == P[j] {
          SpellInjective(A, L, T[i], T[j]);
        }
      }
    } else {
      var a, b :| 0 <= a < b < |A| && A[a] == A[b];
      var zeros := seq(L - 1, j => 0);
      var ta, tb := [a] + zeros, [b] + zeros;
      IndexTuplesMembers(|A|, L, ta);
      IndexTuplesMembers(|A|, L, tb);
      var ka :| 0 <= ka < |T| && T[ka] == ta;
      var kb :| 0 <= kb < |T| && T[kb] == tb;
      assert Spell(A, ta) == Spell(A, tb);
      assert ta[0] != tb[0];
      assert P[ka] == P[kb] && ka != kb;
      var lo, hi := if ka < kb then ka else kb, if ka < kb then kb else ka;
      assert P[lo] == P[hi];
    }
  }
}

=== FILE: wordlist.dfy ===
/** `generate_wordlist`: from a request (seed words or an alphabet and an
    entry length) and the user's answer to the size prompt, the outcome of one
    run — a configuration error, an aborted run, an exception from
    `itertools.product`, or the lines written to the output file, in order.
 */
module Wordlist {
  import opened Order
  import opened Tuples
  import opened Permutations
  import opened Alphabet
  import opened Estimate
  import opened Output

  /** The parameters of `generate_wordlist` apart from the output path and the
      append flag; an absent incremental alphabet is the empty string. */
  datatype Request = Request(
    entryLength: int,
    words: seq<string>,
    includeNumbers: bool,
    includeCaps: bool,
    includeSpecial: bool,
    incremental: string,
    useDefault: bool)

  /** The two configuration errors: the first is reported when `default` is
      set (its message suggests `-d`), the second otherwise. */
  datatype ConfigError = NoCharacterTypeWithDefault | NoCharacterType

  datatype Outcome =
    | Rejected(error: ConfigError)
    | Aborted
    | NegativeRepeat
    | Written(lines: seq<string>)

  function CharactersOf(req: Request): (alphabet: string) {
    BuildAlphabet(req.useDefault, req.includeCaps, req.includeNumbers, req.includeSpecial, req.incremental)
  }

  /** The `any([...])` test of whiskycrack.py lines 39 and 42. */
  predicate AnyCharacterType(req: Request) {
    req.includeCaps || req.includeNumbers || req.includeSpecial || |req.incremental| > 0
  }

  // ---- the confirmation answer ---------------------------------------------

  function Lower(c: char): (lowered: char) {
    if 'A' <= c <= 'Z' then (c as int + 32) as char else c
  }

  function LowerString(s: string): (lowered: string) {
    seq(|s|, i requires 0 <= i < |s| => Lower(s[i]))
  }

  /** `confirmation.lower() == 'y'`. */
  predicate Confirms(answer: string) {
    LowerString(answer) == "y"
  }

  /** Exactly the answers `y` and `Y` confirm. */
  lemma ConfirmsExactly(answer: string)
    ensures Confirms(answer) <==> answer == "y" || answer == "Y"
  {
    if Confirms(answer) {
      assert |answer| == 1 && LowerString(answer)[0] == 'y';
      assert answer == [answer[0]];
    }
    if answer == "y" || answer == "Y" {
      assert LowerString(answer) == [Lower(answer[0])];
    }
  }

  // ---- words mode ----------------------------------------------------------

  /** `''.join(ws)`. */
  function Concat(ws: seq<string>): (line: string) {
    if |ws| == 0 then "" else ws[0] + Concat(ws[1..])
  }

  /** The words at positions `p`, in that order. */
  function Select(words: seq<string>, p: seq<nat>): (chosen: seq<string>)
    requires forall j :: 0 <= j < |p| ==> p[j] < |words|
  {
    seq(|p|, j requires 0 <= j < |p| => words[p[j]])
  }

  /** One concatenated line per ordering `itertools.permutations` yields. */
  function PermutedLines(words: seq<string>): (lines: seq<string>) {
    var P := IndexPerms(|words|);
    IndexPermsFacts(|words|);
    seq(|P|, k requires 0 <= k < |P| => Concat(Select(words, P[k])))
  }

  /** Models whiskycrack.py lines 31-37: the words themselves, then, for
      more than one word, every ordering of them concatenated. */
  function WordLines(words: seq<string>): (lines: seq<string>) {
    words + (if |words| > 1 then PermutedLines(words) else [])
  }

  // ---- the run -------------------------------------------------------------

  /** Models whiskycrack.py lines 13-59; `answer` is what the user would type
      at the prompt of line 52. */
  function Generate(req: Request, answer: string): (outcome: Outcome) {
    if |req.words| > 0 then
      Written(WordLines(req.words))
    else if req.useDefault && !AnyCharacterType(req) then
      Rejected(NoCharacterTypeWithDefault)
    else if !req.useDefault && !AnyCharacterType(req) then
      Rejected(NoCharacterType)
    else
      ProductRun(CharactersOf(req), req.entryLength, answer)
  }

  /** Models whiskycrack.py lines 46-59: the size gate and the enumeration. */
  function ProductRun(characters: string, entryLength: int, answer: string): (outcome: Outcome) {
    // A negative length keeps the estimate at or below zero, so the prompt is
    // never shown, and `itertools.product` refuses a negative repeat count.
    if entryLength < 0 then
      NegativeRepeat
    else if ExceedsThreshold(entryLength, characters) && !Confirms(answer) then
      Aborted
    else
      Written(Product(characters, entryLength))
  }

  /** `Generate` as its error message evidently intends: `default` alone is
      a character type, so only a request with no character at all is
      rejected. */
  function GenerateIntended(req: Request, answer: string): (outcome: Outcome) {
    if |req.words| > 0 then
      Written(WordLines(req.words))
    else if !req.useDefault && !AnyCharacterType(req) then
      Rejected(NoCharacterType)
    else
      ProductRun(CharactersOf(req), req.entryLength, answer)
  }

  // ---- properties of words mode --------------------------------------------

  /** Seed words decide the run alone: the entry length, the character flags
      and the answer make no difference. */
  lemma WordModeIgnoresRest(req: Request, req': Request, answer: string, answer': string)
    requires |req.words| > 0 && req'.words == req.words
    ensures Generate(req, answer) == Generate(req', answer')
    ensures Generate(req, answer) == Written(WordLines(req.words))
  {
  }

  /** The first lines are the words verbatim and in order; a single word is
      the whole output; otherwise `n!` concatenated lines follow. */
  lemma WordLinesLayout(words: seq<string>)
    requires |words| > 0
    ensures |WordLines(words)| == |words| + (if |words| > 1 then Factorial(|words|) else 0)
    ensures WordLines(words)[..|words|] == words
    ensures |words| == 1 ==> WordLines(words) == words
  {
    IndexPermsFacts(|words|);
  }

  /** After the words, line `n + k` joins the words in the `k`-th ordering of
      their positions; every ordering of the positions appears, exactly once,
      in increasing lexicographic order. */
  lemma PermutedLinesOrderings(words: seq<string>)
    requires |words| > 1
    ensures var n := |words|; var lines := WordLines(words); var P := IndexPerms(n);
      && |P| == Factorial(n)
      && (forall k :: 0 <= k < |P| ==>
            IsPositionOrdering(P[k], n) && lines[n + k] == Concat(Select(words, P[k])))
      && (forall p :: IsPositionOrdering(p, n) ==> p in P)
      && (forall k, k' :: 0 <= k < k' < |P| ==> Less(P[k], P[k']) && P[k] != P[k'])
  {
    var n := |words|;
    var P := IndexPerms(n);
    IndexPermsFacts(n);
    SortedDistinct(P);
  }

  /** Duplicates are kept: two equal words give each ordering's line twice. */
  lemma RepeatedWordRepeatsLines(w: string)
    ensures WordLines([w, w]) == [w, w, w + w, w + w]
  {
    IndexPermsOfTwo();
    assert [w, w][1..] == [w] && [w][1..] == [];
    assert Concat([w]) == w + Concat([]) == w;
    assert Concat([w, w]) == w + w;
    assert Select([w, w], [0, 1]) == [w, w] && Select([w, w], [1, 0]) == [w, w];
    assert PermutedLines([w, w]) == [w + w, w + w];
  }

  /** Different orderings can give equal lines, and both are written: for
      the words x, y and x + y (say "a", "b", "ab"), the orders 0-1-2 and
      2-0-1 both join to x + y + x + y. */
  lemma JoinedWordRepeatsLine(x: string, y: string)
    ensures var lines := WordLines([x, y, x + y]);
      exists k, k' :: 3 <= k < k' < |lines| && lines[k] == lines[k'] == x + y + x + y
  {
    var words := [x, y, x + y];
    var p, q := [0, 1, 2], [2, 0, 1];
    assert IsPositionOrdering(p, 3) && IsPositionOrdering(q, 3);
    assert Select(words, p) == [x, y, x + y];
    assert Select(words, q) == [x + y, x, y];
    JoinThree(x, y, x + y);
    JoinThree(x + y, x, y);
    EqualJoinsRepeat(words, p, q);
  }

  /** Two different orderings that join to the same string give two equal lines. */
  lemma EqualJoinsRepeat(words: seq<string>, p: seq<nat>, q: seq<nat>)
    requires |words| > 1 && IsPositionOrdering(p, |words|) && IsPositionOrdering(q, |words|) && p != q
    requires Concat(Select(words, p)) == Concat(Select(words, q))
    ensures var lines := WordLines(words);
      exists k, k' :: |words| <= k < k' < |lines| && lines[k] == lines[k'] == Concat(Select(words, p))
  {
    var n := |words|;
    var i := OrderingLine(words, p);
    var j := OrderingLine(words, q);
    assert i != j;
    var lo, hi := if i < j then i else j, if i < j then j else i;
    assert WordLines(words)[n + lo] == WordLines(words)[n + hi] == Concat(Select(words, p));
  }

  /** Every ordering `p` of the positions has its own line after the words. */
  lemma OrderingLine(words: seq<string>, p: seq<nat>) returns (k: nat)
    requires |words| > 1 && IsPositionOrdering(p, |words|)
    ensures k < |IndexPerms(|words|)| && IndexPerms(|words|)[k] == p
    ensures |words| + k < |WordLines(words)| && WordLines(words)[|words| + k] == Concat(Select(words, p))
  {
    var n := |words|;
    var P := IndexPerms(n);
    IndexPermsFacts(n);
    assert p in P;
    k :| 0 <= k < |P| && P[k] == p;
    var lines := PermutedLines(words);
    assert lines[k] == Concat(Select(words, P[k]));
    assert WordLines(words) == words + lines;
    assert WordLines(words)[n + k] == lines[k];
  }

  lemma JoinThree(x: string, y: string, z: string)
    ensures Concat([x, y, z]) == x + y + z
  {
    assert [x, y, z][1..] == [y, z] && [y, z][1..] == [z] && [z][1..] == [];
    assert Concat([z]) == z + Concat([]) == z;
  }

  lemma IndexPermsOfTwo()
    ensures IndexPerms(2) == [[0, 1], [1, 0]]
  {
    assert Range(2) == [0, 1];
    assert Remove([0, 1], 0) == [1] && Remove([0, 1], 1) == [0];
    assert Remove([1], 0) == [] && Remove([0], 0) == [];
    assert Prepend(1, [[]])[0] == [1] && Prepend(0, [[]])[0] == [0];
    assert Perms([1]) == Prepend(1, Perms([])) + PermsFrom([1], 1) == [[1]];
    assert Perms([0]) == Prepend(0, Perms([])) + PermsFrom([0], 1) == [[0]];
    assert Prepend(1, [[0]])[0] == [1, 0] && Prepend(0, [[1]])[0] == [0, 1];
    assert PermsFrom([0, 1], 1) == Prepend(1, [[0]]) + PermsFrom([0, 1], 2) == [[1, 0]];
    assert Perms([0, 1]) == Prepend(0, [[1]]) + [[1, 0]] == [[0, 1], [1, 0]];
  }

  /** A seed word is written verbatim, so one that holds a newline reads
      back from the file as two lines. */
  lemma SeedWordWithNewline(req: Request, answer: string, x: string, y: string)
    requires Newline !in x && Newline !in y && req.words == [x + [Newline] + y]
    ensures Generate(req, answer) == Written([x + [Newline] + y])
    ensures Parse(Serialize(Generate(req, answer).lines)) == [x, y]
  {
    var w := x + [Newline] + y;
    assert WordLines([w]) == [w];
    assert Serialize([w]) == Serialize([]) + w + [Newline];
    assert Serialize([x]) == Serialize([]) + x + [Newline];
    assert Serialize([x, y]) == Serialize([x]) + y + [Newline];
    assert Serialize([w]) == Serialize([x, y]);
    assert NoNewlines([x, y]);
    ParseSerialize([x, y]);
    assert Generate(req, answer) == Written(WordLines(req.words));
  }

  // ---- properties of product mode ------------------------------------------

  /** With no seed words and no caps, numbers, special or incremental
      characters, the run is rejected and writes nothing, also under `default`. */
  lemma NoCharacterTypeRejected(req: Request, answer: string)
    requires |req.words| == 0 && !AnyCharacterType(req)
    ensures Generate(req, answer).Rejected?
    ensures Generate(req, answer).error ==
      (if req.useDefault then NoCharacterTypeWithDefault else NoCharacterType)
    ensures req.useDefault ==> CharactersOf(req) == Lowercase
  {
  }

  /** The answer is read only when the estimate is above the threshold. */
  lemma AnswerOnlyAboveThreshold(req: Request, answer: string, answer': string)
    requires !(|req.words| == 0 && AnyCharacterType(req) && req.entryLength >= 0
               && ExceedsThreshold(req.entryLength, CharactersOf(req)))
    ensures Generate(req, answer) == Generate(req, answer')
  {
  }

  /** Above the threshold the run is aborted, with nothing written, exactly
      when the answer is neither `y` nor `Y`. */
  lemma AbortedExactly(req: Request, answer: string)
    requires |req.words| == 0 && AnyCharacterType(req) && req.entryLength >= 0
    ensures Generate(req, answer) == Aborted <==>
      7 * (Pow(|CharactersOf(req)|, req.entryLength) * req.entryLength) > 5000000
      && answer != "y" && answer != "Y"
  {
    ExceedsThresholdScaled(req.entryLength, CharactersOf(req));
    ConfirmsExactly(answer);
  }

  /** A product-mode run that goes ahead writes `|A|^L` lines (repeated
      alphabet characters counted separately), each of length `L` over the
      alphabet `A`, every such string among them, spelling the position
      tuples in strictly increasing lexicographic order. */
  lemma ProductModeLines(req: Request, answer: string)
    requires |req.words| == 0 && AnyCharacterType(req) && req.entryLength >= 0
    requires !ExceedsThreshold(req.entryLength, CharactersOf(req)) || Confirms(answer)
    ensures var A := CharactersOf(req); var L := req.entryLength as nat;
      && Generate(req, answer).Written?
      && var lines := Generate(req, answer).lines;
      && |lines| == Pow(|A|, L) == CalculateSize(L, A)
      && (forall k :: 0 <= k < |lines| ==> |lines[k]| == L && forall j :: 0 <= j < L ==> lines[k][j] in A)
      && (forall w: string :: |w| == L && (forall j :: 0 <= j < |w| ==> w[j] in A) ==> w in lines)
      && Sorted(IndexTuples(|A|, L))
      && (forall k :: 0 <= k < |lines| ==> IsTuple(IndexTuples(|A|, L)[k], |A|, L) && lines[k] == Spell(A, IndexTuples(|A|, L)[k]))
  {
    var A := CharactersOf(req);
    var L := req.entryLength as nat;
    assert Generate(req, answer) == Written(Product(A, L));
    ProductCount(A, L);
    ProductLines(A, L);
    ProductOrder(A, L);
    forall w: string | |w| == L && (forall j :: 0 <= j < |w| ==> w[j] in A)
      ensures w in Product(A, L)
    {
      ProductComplete(A, L, w);
    }
  }

  /** A product run that goes ahead writes no line twice exactly when the
      length is 0 or no incremental character is already among the selected
      classes: the incremental characters are not deduplicated against them. */
  lemma ProductRunDistinct(req: Request, answer: string)
    requires |req.words| == 0 && AnyCharacterType(req) && req.entryLength >= 0
    requires !ExceedsThreshold(req.entryLength, CharactersOf(req)) || Confirms(answer)
    ensures Generate(req, answer).Written?
    ensures Distinct(Generate(req, answer).lines) <==>
      req.entryLength == 0 ||
      forall c :: c in req.incremental ==>
        c !in Classes(req.useDefault, req.includeCaps, req.includeNumbers, req.includeSpecial)
  {
    var A := CharactersOf(req);
    var L := req.entryLength as nat;
    assert Generate(req, answer) == Written(Product(A, L));
    ProductDistinct(A, L);
    AlphabetRepeats(req.useDefault, req.includeCaps, req.includeNumbers, req.includeSpecial, req.incremental);
  }

  /** A negative entry length in product mode ends in the exception from
      `itertools.product`, whatever the answer. */
  lemma NegativeLengthRaises(req: Request, answer: string)
    requires |req.words| == 0 && AnyCharacterType(req) && req.entryLength < 0
    ensures Generate(req, answer) == NegativeRepeat
  {
  }

  // ---- the default-only request --------------------------------------------

  /** As written, `default` alone is rejected, with the message that suggests
      `default`, although it selects a 26-letter alphabet. */
  lemma DefaultAloneRejected(entryLength: int, answer: string)
    ensures var req := Request(entryLength, [], false, false, false, "", true);
      && Generate(req, answer) == Rejected(NoCharacterTypeWithDefault)
      && |CharactersOf(req)| == 26
  {
  }

  /** The corrected run is rejected exactly when the alphabet is empty. */
  lemma IntendedRejectsEmptyAlphabet(req: Request, answer: string)
    requires |req.words| == 0
    ensures GenerateIntended(req, answer).Rejected? <==> |CharactersOf(req)| == 0
  {
    AlphabetSize(req.useDefault, req.includeCaps, req.includeNumbers, req.includeSpecial, req.incremental);
    if |req.incremental| > 0 {
      assert req.incremental[0] in Chars(req.incremental);
    } else {
      assert Chars(req.incremental) == {};
    }
  }

  /** The correction changes nothing but the default-only request. */
  lemma IntendedAgreesElsewhere(req: Request, answer: string)
    requires !(|req.words| == 0 && req.useDefault && !AnyCharacterType(req))
    ensures GenerateIntended(req, answer) == Generate(req, answer)
  {
  }
}
